=== FILE: README.md ===
# Drug-record manager: a Dafny model

This project models the core of a small paginated record manager for drug
names. It has three parts:

- **The `sum` table** (server/schema.ts). Each row is a `Schema.Record` with `id`, `drugName`, `createdAt`, `updatedAt` and an optional `deletedAt`. The table is a `seq<Record>`. Sequence order stands for the order in which SQLite scans this rowid table. `getAllPosts` has no `ORDER BY`, so the pagination results assume every query returns rows in that same order: inserts land at the end, and UPDATE keeps a row's position.
- **The server actions** (server/actions/crud.js). The five actions are pure functions in module `Crud`. `createPost`, `updatePost` and `deletePost` map a table to a `Crud.Step`, which is the new table plus the reported outcome. `getPost` and `getAllPosts` only read the table: one returns an `Option<Record>`, the other a `Crud.Listing`. Each ORM call is replaced by its SQL meaning:
  - `INSERT` appends a row. A duplicate primary key fails, and the action's catch branch turns that failure into an error.
  - `UPDATE … WHERE id =` rewrites the matching rows in place.
  - `DELETE … WHERE id =` keeps the other rows in order.
  - `LIMIT/OFFSET` is a slice of the table, and `COUNT(*)` is its length.
- **The page** (app/page.tsx). The component's state is the record `View.ViewState`: the name input, the search keyword, the fetched page, the selected post, the current page and the page count. Every handler is a pure transition on the store and the view together (`View.App`). `View.Dispatch` wires each user event to the handler the rendered page connects it to.

Inputs from the environment are parameters of the functions:
- the uuid of a new record;
- the clock readings, as abstract `nat` timestamps: the server's `new Date()` at crud.js lines 19-20 (create) and 40 (update), and the page's `new Date()` at page.tsx line 86;
- the form field, as `Option<string>`: `None` is a missing field.

`filteredPosts` is not stored in the state. It is derived as `Search.Filter(posts, keyword)`, which is what the filter effect recomputes after every change to `posts` or `searchKeyword`.

The table invariant is `Schema.Valid`:
- ids are unique (the primary key);
- every drug name is non-empty;
- no row carries a `deletedAt` mark.

Every action preserves it. `NOT NULL` on `drug_name`, `created_at` and `updated_at` is enforced by typing, since those fields are not optional.

Behaviour of the code worth noting:
- A whitespace-only name is accepted. The guard is `!drugName`, which only rejects a missing field or `""`.
- `createdAt` and `updatedAt` of a new record are separate clock readings, so they need not be equal.
- Updating an unknown id reports success and changes nothing. A zero-row UPDATE does not throw.
- Deletion is a hard delete. `deletedAt` is never written.
- Nothing guarantees `updatedAt >= createdAt`. The clock readings are unconstrained parameters.

## Model

| member | source | states |
|---|---|---|
| `Schema.Keys` | server/schema.ts:5 | The set of primary keys holds exactly the ids some row carries. There are never more keys than rows. |
| `Schema.UniqueIdsIffKeyCount` | server/schema.ts:5 | The primary-key constraint `UniqueIds` holds exactly when the table has as many distinct keys as rows. |
| `Crud.RequiredName` | server/actions/crud.js:11-14 | A missing field or the empty string is rejected. Any other string, whitespace included, is accepted unchanged. |
| `Crud.CreatePost` | server/actions/crud.js:10-31 | Succeeds exactly when the name is valid and the new id is not already a key. On failure the table is unchanged, and an invalid name gives "Drug Name is required". On success exactly one row is appended after the untouched old rows. The new row has the new id, the given name, the two clock readings and no `deletedAt`. The table invariant is preserved. |
| `Crud.Rewrite` | server/actions/crud.js:43-47 | Same length. Each row with the id gets the new name and update time and keeps its id, `createdAt` and `deletedAt`. Every other row is unchanged. |
| `Crud.UpdatePost` | server/actions/crud.js:34-54 | Succeeds exactly when the name is valid, and an invalid name changes nothing. The length and all rows with other ids are unchanged. Matching rows take the name and clock and keep `createdAt`. An absent id leaves the table as it was, yet still reports success. The table invariant is preserved. |
| `Crud.Without` | server/actions/crud.js:59-62 | A row survives exactly when it was in the table and does not carry the id. Nothing is added. |
| `Crud.DeletePost` | server/actions/crud.js:57-69 | Always succeeds and leaves no row with the id. It keeps exactly the other rows. An absent id is a no-op. The table invariant is preserved. |
| `Crud.WithoutKeepsValid` | server/actions/crud.js:57-64 | Deleting rows keeps the table invariant: ids stay unique, names non-empty and `deletedAt` absent. Those facts come from the `!drugName` guards (crud.js lines 12 and 36) and the record literal without `deletedAt` (lines 16-21). |
| `Crud.DeleteKeepsOrder` | server/actions/crud.js:59-62 | Deleting distributes over concatenation, and a single row is dropped exactly when it carries the id. Together these mean the survivors are the non-matching rows in their original order and multiplicity. |
| `Crud.DeleteRemovesOne` | server/actions/crud.js:59-62 | Under the primary key, deleting a present id shortens the table by exactly one. |
| `Crud.DeleteIdempotent` | server/actions/crud.js:57-64 | Deleting the same id twice gives the same table and outcome as deleting it once. |
| `Crud.DeleteThenGet` | server/actions/crud.js:72-79 | After a delete, `getPost` on that id finds nothing. |
| `Crud.GetPost` | server/actions/crud.js:72-84 | Returns a row exactly when some row has the id, and that row is in the table and has the id. |
| `Crud.GetPostFindsRow` | server/actions/crud.js:74-78 | Under the primary key, `getPost` returns the one row carrying the id. |
| `Crud.CreateThenGet` | server/actions/crud.js:16-26 | After a successful create, `getPost` on the new id returns the new record with the given name. |
| `Crud.UpdateThenGet` | server/actions/crud.js:40-47 | After a successful update, `getPost` returns the old row with the new name and clock. `createdAt` is unchanged. |
| `Crud.CeilDiv` | server/actions/crud.js:101 | The result is the least page count whose pages hold all rows (`n <= k*d < n+d`). |
| `Crud.GetAllPosts` | server/actions/crud.js:87-107 | The requested page number is echoed, and `totalPages` is the ceiling of count over size. The page holds at most `pageSize` rows: the table's rows from offset `(page-1)*pageSize` in order, `min(pageSize, n - offset)` of them. It is empty past the end, with no clamping. |
| `Pagination.PageCountBounds` | server/actions/crud.js:97-101 | `totalPages` is 0 exactly for the empty table. Otherwise the last page starts before the last row and the pages hold every row. |
| `Pagination.PageCountStable` | server/actions/crud.js:97-101 | The page count does not depend on the page requested. |
| `Pagination.WindowOfPage` | server/actions/crud.js:89-94 | Position `i` lies in page `q`'s LIMIT/OFFSET window exactly when `q = i / size + 1`. |
| `Pagination.RowOnPage` | server/actions/crud.js:89-95 | Under the primary key, row `i` is listed on page `q >= 1` exactly when `q = i / size + 1`. |
| `Pagination.RowOnExactlyOnePage` | server/actions/crud.js:89-101 | Under the primary key, every row lies on exactly one page among those numbered from 1: the page `i / size + 1`, which is within `1..totalPages`. |
| `Pagination.PagesPartitionTable` | server/actions/crud.js:89-95 | Pages `1..totalPages` laid end to end are exactly the table, in order. |
| `Pagination.PastLastPageEmpty` | server/actions/crud.js:89-95 | Any page number beyond `totalPages` lists no rows. |
| `Pagination.ThirteenRows` | server/actions/crud.js:87-101 | With 13 rows and the default size 6, pages 1, 2 and 3 hold 6, 6 and 1 rows, page 4 is empty, and `totalPages` is 3. |
| `Pagination.CreateUpdateDeleteScenario` | server/actions/crud.js:10-112 | Start from an empty table: create "Aspirin" and "Ibuprofen", rename the first to "Aspirin 500mg", then delete it. The listings and lookups along the way show each step, and the final listing holds only "Ibuprofen". |
| `Search.IncludesIsSubstring` | app/page.tsx:41 | `includes` is true exactly when the keyword occurs at some position of the name. |
| `Search.Filter` | app/page.tsx:39-44 | A post is shown exactly when it is on the page and its name contains the keyword. |
| `Search.FilterKeepsOrder` | app/page.tsx:40-42 | Filtering distributes over concatenation. A single post is kept exactly when it matches. Together these mean the result is the order-preserving subsequence of matches. |
| `Search.EmptyKeywordKeepsAll` | app/page.tsx:39-44 | An empty keyword shows the whole page. |
| `View.ActionButton` | app/page.tsx:129-140 | The form shows "update" exactly in Editing mode, when a post is selected, and "create" exactly in Idle mode. |
| `View.ApplyListing` | app/page.tsx:46-60 | A listing replaces `posts`, `totalPages` and `currentPage` with the returned values. An error changes nothing. Input, keyword and selection are never touched. |
| `View.FetchPosts` | app/page.tsx:46-60 | After a fetch, the current page is the one requested, and `posts` is exactly the listing `getAllPosts` returns for that page at size 6. That listing is the page's rows of the table, in order, as the `Crud.GetAllPosts` row states. The page count is the ceiling of the table size over 6. Input, keyword and selection are untouched. |
| `View.Mount` | app/page.tsx:27-37 | The first render fetches page 1: `posts` is exactly page 1 of the table, the page count is the ceiling of its size over 6, the input is empty and nothing is selected. |
| `View.HandleCreate` | app/page.tsx:63-73 | The store becomes exactly `createPost`'s table. On success, exactly one row is appended, carrying the input's name and the two clock readings; the input is cleared and the current page is refetched. On failure nothing changes. The selection is untouched either way, so Idle stays Idle. |
| `View.HandleUpdate` | app/page.tsx:75-97 | With no selection, or an empty input, nothing changes. Otherwise the store is updated and, in the local list, only the posts with the selected id change, taking the input as name. List length, order and the pager are kept, and the input and selection are cleared. |
| `View.HandleDelete` | app/page.tsx:99-106 | The store becomes exactly `deletePost`'s table: the rows with the id are removed and the rest keep their order. The current page is refetched. The selection and input are kept, even when the deleted post was selected. |
| `View.HandleEdit` | app/page.tsx:108-111 | The input takes the post's name, the post becomes the selection (Editing), and nothing else changes. |
| `View.HandlePageChange` | app/page.tsx:113-115 | A new page number is shown and fetched. The same page number changes nothing. |
| `View.Dispatch` | app/page.tsx:121-201 | Each event reaches the handler the page wires it to. Typing in the name input sets only `drugName`, and typing in the search box sets only the keyword, so the same page is filtered by the new keyword. The action button runs `handleUpdate` in Editing mode and `handleCreate` in Idle mode. An edit button selects its own rendered row. A delete button deletes its own rendered row's id from the store. A row index outside the rendered table changes nothing. Only the action and delete buttons change the store. |
| `View.MountEstablishesInv` | app/page.tsx:32-37 | A valid store and page 1 satisfy the page's invariant after mounting. |
| `View.DispatchKeepsInv` | app/page.tsx:184-199 | Every event keeps the table invariant and keeps the page number at least 1. |
| `View.ModeTransitions` | app/page.tsx:63-111 | After an event the form is Editing exactly when a rendered row was picked for editing, or it was Editing and the event was not a submit with a non-empty input. |
| `View.PagerButtons` | app/page.tsx:184-201 | On page 1 "previous" does nothing, and "next" does nothing when the page number equals `totalPages`. Otherwise the button moves one page back or forward and shows that page. |
| `View.EmptyTableNextEnabled` | app/page.tsx:195-199 | With an empty table `totalPages` is 0, so on page 1 "next" is enabled and leads to an empty page 2. |

## Left out

- Storage failures other than a duplicate primary key are left out. These are the catch branches of `createPost`, `updatePost`, `deletePost`, `getPost` and `getAllPosts` when the database itself fails, and they depend on I/O. `Crud.GetAllPosts` therefore never returns `ListError`, though `View.ApplyListing` handles it.
- Crud.GetAllPosts: requires a positive page size. The page always uses the default 6, and a size of 0 makes `Math.ceil` return `Infinity` or `NaN`, which have no integer model. A page below 1 gives a negative OFFSET, which SQLite treats as 0.
- `uuidv4()` is a parameter (`newId` / `freshId`). A colliding value is handled through the primary-key failure rather than assumed away.
- Clocks are abstract `nat` parameters: `new Date()`, `toISOString` and `toLocaleString`. The difference between ISO strings and the integer `created_at`/`updated_at` columns is ignored, and so is the locale formatting of timestamps in the page.
- `revalidatePath`, `console.error` and the `FormData` plumbing are left out. The form field is `Option<string>`.
- React scheduling is not modelled. This covers the interleaving of the un-awaited `fetchPosts` calls and the transient render in which `filteredPosts` briefly holds the unfiltered page. Transitions describe the settled state.
- JSX rendering and styling are not modelled. JavaScript's `includes` works on UTF-16 code units; the model works on Dafny `char`s.
- drizzle.config.ts and the ORM internals are configuration. `getPost` is imported by the page but never called there.

=== FILE: crud.dfy ===
/**
 The server actions of server/actions/crud.js as state transitions over the
 `sum` table. The ORM calls are replaced by their SQL meaning (INSERT,
 UPDATE ... WHERE id =, DELETE ... WHERE id =, SELECT ... WHERE id =,
 LIMIT/OFFSET and COUNT(*)); the uuid and the clock readings are parameters.
 */
module Crud {
  import opened Schema
  import Seqs

  /** The `{ success: ... }` / `{ error: ... }` objects the actions return. */
  datatype Outcome = Success(message: string) | Failure(message: string)

  /** A table together with the outcome an action reported. */
  datatype Step = Step(table: Table, outcome: Outcome)

  /** `getAllPosts`' result: a page with its pagination data, or an error. */
  datatype Listing =
    | Listed(posts: seq<Record>, totalPages: nat, currentPage: int)
    | ListError(message: string)

  const NameRequired := "Drug Name is required"
  const CreateFailed := "Failed to create record"
  const Created := "Record Created"
  const Updated := "Record Updated"
  const Deleted := "Record Deleted"

  /** The page size `getAllPosts` uses when none is given. */
  const DefaultPageSize := 6

  /** `formData.get("drugName")?.toString()` followed by the `!drugName`
      guard: a missing field and the empty string are rejected, anything
      else (whitespace included) is accepted as it is. */
  function RequiredName(field: Option<string>): (r: Option<string>)
    ensures r.Some? <==> field.Some? && field.value != ""
    ensures r.Some? ==> r.value == field.value
  {
    match field
    case None => None
    case Some(s) => if s == "" then None else Some(s)
  }

  /** `createPost`: validate, then INSERT a row under `newId`. The INSERT
      violates the primary key when `newId` is taken, which lands in the
      catch branch. `createdClock` and `updatedClock` are the two clock
      readings of the record literal. */
  function CreatePost(t: Table, field: Option<string>, newId: string,
                      createdClock: Timestamp, updatedClock: Timestamp): (r: Step)
    ensures r.outcome.Success? <==> RequiredName(field).Some? && !HasId(t, newId)
    ensures RequiredName(field).None? ==> r == Step(t, Failure(NameRequired))
    ensures r.outcome.Failure? ==> r.table == t
    ensures r.outcome.Success? ==>
      && |r.table| == |t| + 1
      && r.table[..|t|] == t
      && r.table[|t|].id == newId
      && r.table[|t|].drugName == field.value
      && r.table[|t|].createdAt == createdClock
      && r.table[|t|].updatedAt == updatedClock
      && r.table[|t|].deletedAt == None
    ensures Valid(t) ==> Valid(r.table)
  {
    match RequiredName(field)
    case None => Step(t, Failure(NameRequired))
    case Some(name) =>
      if HasId(t, newId) then Step(t, Failure(CreateFailed))
      else
        var row := Record(newId, name, createdClock, updatedClock, None);
        assert (t + [row])[..|t|] == t;
        Step(t + [row], Success(Created))
  }

  /** The row `r` after `SET drugName = name, updatedAt = clock`. */
  function Touch(r: Record, name: string, clock: Timestamp): Record
  {
    r.(drugName := name, updatedAt := clock)
  }

  /** `UPDATE sum SET drugName, updatedAt WHERE id = id` on its own: every
      matching row is rewritten in place, every other row is left alone. */
  function Rewrite(t: Table, id: string, name: string, clock: Timestamp): (r: Table)
    ensures |r| == |t|
    ensures forall i :: 0 <= i < |t| && t[i].id == id ==>
      r[i].id == id && r[i].drugName == name && r[i].updatedAt == clock &&
      r[i].createdAt == t[i].createdAt && r[i].deletedAt == t[i].deletedAt
    ensures forall i :: 0 <= i < |t| && t[i].id != id ==> r[i] == t[i]
  {
    if t == [] then []
    else [if t[0].id == id then Touch(t[0], name, clock) else t[0]]
         + Rewrite(t[1..], id, name, clock)
  }

  /** `updatePost`: validate, then UPDATE. A zero-row UPDATE does not throw,
      so an unknown id still reports success. */
  function UpdatePost(t: Table, id: string, field: Option<string>, clock: Timestamp): (r: Step)
    ensures r.outcome.Success? <==> RequiredName(field).Some?
    ensures r.outcome.Failure? ==> r == Step(t, Failure(NameRequired))
    ensures |r.table| == |t|
    ensures forall i :: 0 <= i < |t| && t[i].id != id ==> r.table[i] == t[i]
    ensures r.outcome.Success? ==> forall i :: 0 <= i < |t| && t[i].id == id ==>
      && r.table[i].id == id
      && r.table[i].drugName == field.value
      && r.table[i].updatedAt == clock
      && r.table[i].createdAt == t[i].createdAt
      && r.table[i].deletedAt == t[i].deletedAt
    ensures !HasId(t, id) ==> r.table == t
    ensures Valid(t) ==> Valid(r.table)
  {
    match RequiredName(field)
    case None => Step(t, Failure(NameRequired))
    case Some(name) =>
      var t' := Rewrite(t, id, name, clock);
      assert !HasId(t, id) ==> t' == t;
      Step(t', Success(Updated))
  }

  /** `DELETE FROM sum WHERE id = id` on its own. */
  function Without(t: Table, id: string): (r: Table)
    ensures |r| <= |t|
    ensures forall x :: x in r <==> x in t && x.id != id
  {
    Seqs.Select(t, (x: Record) => x.id != id)
  }

  /** `deletePost`: DELETE never reports a missing row, so it always
      succeeds. */
  function DeletePost(t: Table, id: string): (r: Step)
    ensures r.outcome.Success?
    ensures !HasId(r.table, id)
    ensures forall x :: x in r.table <==> x in t && x.id != id
    ensures !HasId(t, id) ==> r.table == t
    ensures Valid(t) ==> Valid(r.table)
  {
    var t' := Without(t, id);
    assert !HasId(t', id) by {
      forall i | 0 <= i < |t'| ensures t'[i].id != id {
        assert t'[i] in t';
      }
    }
    assert !HasId(t, id) ==> t' == t by {
      if !HasId(t, id) {
        Seqs.SelectAll(t, (x: Record) => x.id != id);
      }
    }
    assert Valid(t) ==> Valid(t') by {
      if Valid(t) {
        WithoutKeepsValid(t, id);
      }
    }
    Step(t', Success(Deleted))
  }

  /** Deleting keeps the remaining rows distinct and live. */
  lemma {:induction false} WithoutKeepsValid(t: Table, id: string)
    requires Valid(t)
    ensures Valid(Without(t, id))
  {
    if t != [] {
      var keep := (x: Record) => x.id != id;
      assert t == [t[0]] + t[1..];
      Seqs.SelectAppend([t[0]], t[1..], keep);
      assert Valid(t[1..]);
      WithoutKeepsValid(t[1..], id);
      var rest := Without(t[1..], id);
      forall x | x in rest ensures x.id != t[0].id {
        assert x in t[1..];
      }
    }
  }

  /** `getPost`: the first row whose id matches, if any. */
  function GetPost(t: Table, id: string): (r: Option<Record>)
    ensures r.Some? <==> HasId(t, id)
    ensures r.Some? ==> r.value in t && r.value.id == id
  {
    if t == [] then None
    else if t[0].id == id then Some(t[0])
    else
      var r := GetPost(t[1..], id);
      assert HasId(t[1..], id) ==> HasId(t, id) by {
        if HasId(t[1..], id) {
          var i :| 0 <= i < |t| - 1 && t[1..][i].id == id;
          assert t[i + 1].id == id;
        }
      }
      assert HasId(t, id) ==> HasId(t[1..], id) by {
        if HasId(t, id) {
          var i :| 0 <= i < |t| && t[i].id == id;
          assert i != 0 && t[1..][i - 1].id == id;
        }
      }
      r
  }

  /** The OFFSET `getAllPosts` sends, `(page - 1) * pageSize`; SQLite treats
      a negative OFFSET as zero. */
  function Offset(page: int, pageSize: nat): nat
  {
    if page >= 1 then (page - 1) * pageSize else 0
  }

  /** `k` is the ceiling of `n / d`: the least count of size-`d` pages that
      holds `n` rows. */
  predicate IsCeiling(k: int, n: nat, d: nat)
  {
    0 <= k && n <= k * d < n + d
  }

  /** `Math.ceil(n / d)` on whole numbers. */
  function CeilDiv(n: nat, d: nat): (k: nat)
    requires d >= 1
    ensures IsCeiling(k, n, d)
  {
    var k := (n + d - 1) / d;
    var rem := (n + d - 1) % d;
    assert n + d - 1 == k * d + rem;
    k
  }

  /** `getAllPosts(page, pageSize)`: LIMIT/OFFSET over the table, COUNT(*)
      for the page count, and the requested page echoed back. The storage
      failure branch is not modelled, so the result is always a listing. */
  function GetAllPosts(t: Table, page: int, pageSize: int): (r: Listing)
    requires pageSize >= 1
    ensures r.Listed?
    ensures r.currentPage == page
    ensures IsCeiling(r.totalPages, |t|, pageSize)
    ensures |r.posts| <= pageSize
    ensures Offset(page, pageSize) >= |t| ==> r.posts == []
    ensures Offset(page, pageSize) < |t| ==>
      |r.posts| == if |t| - Offset(page, pageSize) < pageSize then |t| - Offset(page, pageSize) else pageSize
    ensures forall j :: 0 <= j < |r.posts| ==>
      Offset(page, pageSize) + j < |t| && r.posts[j] == t[Offset(page, pageSize) + j]
  {
    var offset := Offset(page, pageSize);
    var lo := if offset < |t| then offset else |t|;
    var hi := if offset + pageSize < |t| then offset + pageSize else |t|;
    Listed(t[lo..hi], CeilDiv(|t|, pageSize), page)
  }

  /** Under the primary-key constraint `getPost` finds exactly the row that
      carries the id, wherever it sits. */
  lemma {:induction false} GetPostFindsRow(t: Table, i: int)
    requires UniqueIds(t)
    requires 0 <= i < |t|
    ensures GetPost(t, t[i].id) == Some(t[i])
  {
    if i > 0 {
      assert t[0].id != t[i].id;
      assert t[1..][i - 1] == t[i];
      assert UniqueIds(t[1..]);
      GetPostFindsRow(t[1..], i - 1);
    }
  }

  /** A created record is found again under its new id, with the given name. */
  lemma CreateThenGet(t: Table, name: string, newId: string, c: Timestamp, u: Timestamp)
    requires UniqueIds(t)
    requires name != "" && !HasId(t, newId)
    ensures var s := CreatePost(t, Some(name), newId, c, u);
      && s.outcome == Success(Created)
      && GetPost(s.table, newId) == Some(Record(newId, name, c, u, None))
  {
    var s := CreatePost(t, Some(name), newId, c, u);
    assert UniqueIds(s.table) by {
      forall i | 0 <= i < |t| ensures s.table[i] == t[i] {
        assert s.table[..|t|][i] == t[i];
      }
    }
    GetPostFindsRow(s.table, |t|);
  }

  /** After a successful update `getPost` sees the new name and clock, and
      the untouched creation time. */
  lemma UpdateThenGet(t: Table, i: int, name: string, clock: Timestamp)
    requires UniqueIds(t)
    requires 0 <= i < |t| && name != ""
    ensures var s := UpdatePost(t, t[i].id, Some(name), clock);
      && s.outcome == Success(Updated)
      && GetPost(s.table, t[i].id) == Some(t[i].(drugName := name, updatedAt := clock))
  {
    var s := UpdatePost(t, t[i].id, Some(name), clock);
    assert UniqueIds(s.table);
    GetPostFindsRow(s.table, i);
  }

  /** After a delete `getPost` finds nothing. */
  lemma DeleteThenGet(t: Table, id: string)
    ensures GetPost(DeletePost(t, id).table, id) == None
  {
  }

  /** Deleting twice is deleting once, and both report success. */
  lemma DeleteIdempotent(t: Table, id: string)
    ensures var once := DeletePost(t, id);
      DeletePost(once.table, id) == once
  {
    Seqs.SelectIdempotent(t, (x: Record) => x.id != id);
  }

  /** Deleting keeps the surviving rows in their order: it distributes over
      concatenation, and a single row is dropped exactly when it carries
      the id. */
  lemma DeleteKeepsOrder(a: Table, b: Table, id: string)
    ensures DeletePost(a + b, id).table == DeletePost(a, id).table + DeletePost(b, id).table
    ensures forall x: Record :: DeletePost([x], id).table == if x.id == id then [] else [x]
  {
    Seqs.SelectAppend(a, b, (x: Record) => x.id != id);
    forall x: Record
      ensures DeletePost([x], id).table == if x.id == id then [] else [x]
    {
      assert [x][1..] == [];
    }
  }

  /** Under the primary-key constraint a delete of a present id removes
      exactly one row. */
  lemma {:induction false} DeleteRemovesOne(t: Table, id: string)
    requires UniqueIds(t) && HasId(t, id)
    ensures |DeletePost(t, id).table| == |t| - 1
  {
    var keep := (x: Record) => x.id != id;
    assert t == [t[0]] + t[1..];
    Seqs.SelectAppend([t[0]], t[1..], keep);
    if t[0].id == id {
      assert !HasId(t[1..], id) by {
        forall j | 0 <= j < |t| - 1 ensures t[1..][j].id != id {
          assert t[1..][j] == t[j + 1];
        }
      }
      Seqs.SelectAll(t[1..], keep);
    } else {
      var i :| 0 <= i < |t| && t[i].id == id;
      assert t[1..][i - 1].id == id;
      assert UniqueIds(t[1..]);
      DeleteRemovesOne(t[1..], id);
    }
  }
}

=== FILE: pagination.dfy ===
/**
 How the pages `getAllPosts` hands out relate to the whole table: together
 they are the table, each row sits on exactly one of them, and the page
 count is the ceiling of the row count over the page size.
 */
module Pagination {
  import opened Schema
  import opened Crud

  /** The rows of page `page`. */
  function PageRows(t: Table, page: int, pageSize: int): seq<Record>
    requires pageSize >= 1
  {
    GetAllPosts(t, page, pageSize).posts
  }

  /** The number of pages `getAllPosts` reports. */
  function PageCount(t: Table, pageSize: int): nat
    requires pageSize >= 1
  {
    GetAllPosts(t, 1, pageSize).totalPages
  }

  /** `totalPages` is zero exactly for the empty table, and otherwise the
      last page is the one holding the last row. */
  lemma PageCountBounds(t: Table, pageSize: int)
    requires pageSize >= 1
    ensures PageCount(t, pageSize) == 0 <==> |t| == 0
    ensures |t| > 0 ==> (PageCount(t, pageSize) - 1) * pageSize < |t| <= PageCount(t, pageSize) * pageSize
  {
    var k := PageCount(t, pageSize);
    if k == 0 {
      assert |t| <= 0 * pageSize;
    } else {
      assert (k - 1) * pageSize == k * pageSize - pageSize;
    }
  }

  /** The page count does not depend on which page was asked for. */
  lemma PageCountStable(t: Table, page: int, pageSize: int)
    requires pageSize >= 1
    ensures GetAllPosts(t, page, pageSize).totalPages == PageCount(t, pageSize)
  {
    CeilingUnique(GetAllPosts(t, page, pageSize).totalPages, PageCount(t, pageSize), |t|, pageSize);
  }

  lemma CeilingUnique(a: int, b: int, n: nat, d: nat)
    requires d >= 1 && IsCeiling(a, n, d) && IsCeiling(b, n, d)
    ensures a == b
  {
    MulMonotone(a, b - 1, d);
    MulMonotone(b, a - 1, d);
    assert (b - 1) * d == b * d - d;
    assert (a - 1) * d == a * d - d;
  }

  lemma MulMonotone(x: int, y: int, d: nat)
    ensures x <= y ==> x * d <= y * d
  {
  }

  /** Row `i` belongs on page `i / pageSize + 1`. */
  function PageOf(i: nat, pageSize: int): int
    requires pageSize >= 1
  {
    i / pageSize + 1
  }

  /** Page `q` (1-based) covers the positions `[(q-1)*size, q*size)`, and
      position `i` falls in that window exactly on page `PageOf(i)`. */
  lemma WindowOfPage(i: nat, q: int, pageSize: int)
    requires pageSize >= 1 && q >= 1
    ensures (q - 1) * pageSize <= i < (q - 1) * pageSize + pageSize <==> q == PageOf(i, pageSize)
  {
    var k := i / pageSize;
    var m := i % pageSize;
    assert i == k * pageSize + m;
    if q - 1 < k {
      MulMonotone(q, k, pageSize);
      assert q * pageSize == (q - 1) * pageSize + pageSize;
    } else if q - 1 > k {
      MulMonotone(k + 1, q - 1, pageSize);
      assert (k + 1) * pageSize == k * pageSize + pageSize;
    }
  }

  /** Under the primary key, row `i` is on page `q` exactly when `q` is
      its page. */
  lemma RowOnPage(t: Table, i: int, q: int, pageSize: int)
    requires UniqueIds(t) && pageSize >= 1 && q >= 1
    requires 0 <= i < |t|
    ensures t[i] in PageRows(t, q, pageSize) <==> q == PageOf(i, pageSize)
  {
    WindowOfPage(i, q, pageSize);
    var rows := PageRows(t, q, pageSize);
    var off := Offset(q, pageSize);
    if q == PageOf(i, pageSize) {
      assert rows[i - off] == t[i];
    } else {
      forall j | 0 <= j < |rows| ensures rows[j] != t[i] {
        assert rows[j] == t[off + j] && off + j != i;
      }
    }
  }

  /** Every row of the table appears on exactly one page among
      `1..totalPages`, namely page `PageOf(i)`. */
  lemma RowOnExactlyOnePage(t: Table, i: int, pageSize: int)
    requires UniqueIds(t) && pageSize >= 1
    requires 0 <= i < |t|
    ensures 1 <= PageOf(i, pageSize) <= PageCount(t, pageSize)
    ensures forall q :: q >= 1 ==> (t[i] in PageRows(t, q, pageSize) <==> q == PageOf(i, pageSize))
  {
    var p := PageOf(i, pageSize);
    WindowOfPage(i, p, pageSize);
    PageCountBounds(t, pageSize);
    MulMonotone(PageCount(t, pageSize), p - 1, pageSize);
    forall q | q >= 1
      ensures t[i] in PageRows(t, q, pageSize) <==> q == p
    {
      RowOnPage(t, i, q, pageSize);
    }
  }

  /** Pages `from..last` laid end to end. */
  function PagesFrom(t: Table, pageSize: int, from: int, last: int): seq<Record>
    requires pageSize >= 1
    decreases last - from
  {
    if from > last then [] else PageRows(t, from, pageSize) + PagesFrom(t, pageSize, from + 1, last)
  }

  /** A page that starts inside the table is the slice from its offset up
      to the next page's offset or the end of the table. */
  lemma PageRowsSlice(t: Table, page: int, pageSize: int)
    requires pageSize >= 1 && page >= 1
    requires Offset(page, pageSize) < |t|
    ensures var off := Offset(page, pageSize);
      var hi := if off + pageSize < |t| then off + pageSize else |t|;
      PageRows(t, page, pageSize) == t[off..hi]
  {
  }

  /** Pages `1..totalPages` start inside the table; the page after the
      last starts at or past its end. */
  lemma OffsetInTable(t: Table, pageSize: int, from: int)
    requires pageSize >= 1
    requires 1 <= from <= PageCount(t, pageSize) + 1
    ensures from <= PageCount(t, pageSize) ==> Offset(from, pageSize) < |t|
    ensures from > PageCount(t, pageSize) ==> Offset(from, pageSize) >= |t|
    ensures Offset(from + 1, pageSize) == Offset(from, pageSize) + pageSize
  {
    var k := PageCount(t, pageSize);
    PageCountBounds(t, pageSize);
    MulMonotone(from - 1, k, pageSize);
    MulMonotone(from - 1, k as int - 1, pageSize);
    assert from * pageSize == (from - 1) * pageSize + pageSize;
  }

  lemma {:induction false} PagesFromSuffix(t: Table, pageSize: int, from: int)
    requires pageSize >= 1
    requires 1 <= from <= PageCount(t, pageSize) + 1
    ensures var off := Offset(from, pageSize);
      PagesFrom(t, pageSize, from, PageCount(t, pageSize)) == t[if off < |t| then off else |t|..]
    decreases PageCount(t, pageSize) - from
  {
    var k := PageCount(t, pageSize);
    var off := Offset(from, pageSize);
    OffsetInTable(t, pageSize, from);
    if from <= k {
      PagesFromSuffix(t, pageSize, from + 1);
      PageRowsSlice(t, from, pageSize);
      var hi := if off + pageSize < |t| then off + pageSize else |t|;
      assert t[off..] == t[off..hi] + t[hi..];
    }
  }

  /** The pages `1..totalPages` laid end to end are the whole table, in
      order: nothing is lost, repeated or moved. */
  lemma PagesPartitionTable(t: Table, pageSize: int)
    requires pageSize >= 1
    ensures PagesFrom(t, pageSize, 1, PageCount(t, pageSize)) == t
  {
    PagesFromSuffix(t, pageSize, 1);
  }

  /** Any page number past `totalPages` lists nothing: there is no clamping. */
  lemma PastLastPageEmpty(t: Table, page: int, pageSize: int)
    requires pageSize >= 1
    requires page > PageCount(t, pageSize)
    ensures PageRows(t, page, pageSize) == []
  {
    var k := PageCount(t, pageSize);
    PageCountBounds(t, pageSize);
    MulMonotone(k, page - 1, pageSize);
  }

  /** Thirteen rows at the default page size give pages of 6, 6 and 1 rows
      and three pages in all. */
  lemma ThirteenRows(t: Table)
    requires |t| == 13
    ensures PageCount(t, DefaultPageSize) == 3
    ensures |PageRows(t, 1, DefaultPageSize)| == 6
    ensures |PageRows(t, 2, DefaultPageSize)| == 6
    ensures |PageRows(t, 3, DefaultPageSize)| == 1
    ensures PageRows(t, 4, DefaultPageSize) == []
  {
  }

  /** Two creates, an update and a delete on an empty table, observed
      through `getAllPosts` and `getPost`. */
  lemma CreateUpdateDeleteScenario()
    ensures var s1 := CreatePost([], Some("Aspirin"), "a", 1, 1);
      var s2 := CreatePost(s1.table, Some("Ibuprofen"), "b", 2, 2);
      var l1 := GetAllPosts(s2.table, 1, DefaultPageSize);
      var s3 := UpdatePost(s2.table, "a", Some("Aspirin 500mg"), 3);
      var s4 := DeletePost(s3.table, "a");
      var l2 := GetAllPosts(s4.table, 1, DefaultPageSize);
      && s1.outcome.Success? && s2.outcome.Success? && s3.outcome.Success?
      && |l1.posts| == 2 && l1.posts[0].drugName == "Aspirin" && l1.posts[1].drugName == "Ibuprofen"
      && l1.totalPages == 1
      && GetPost(s3.table, "a") == Some(Record("a", "Aspirin 500mg", 1, 3, None))
      && GetPost(s4.table, "a") == None
      && l2.posts == [Record("b", "Ibuprofen", 2, 2, None)] && l2.totalPages == 1
  {
    var s1 := CreatePost([], Some("Aspirin"), "a", 1, 1);
    var s2 := CreatePost(s1.table, Some("Ibuprofen"), "b", 2, 2);
    assert s2.table == [Record("a", "Aspirin", 1, 1, None), Record("b", "Ibuprofen", 2, 2, None)];
    var s3 := UpdatePost(s2.table, "a", Some("Aspirin 500mg"), 3);
    assert s3.table == [Record("a", "Aspirin 500mg", 1, 3, None), Record("b", "Ibuprofen", 2, 2, None)];
    var s4 := DeletePost(s3.table, "a");
    assert s4.table[0] in s4.table;
    assert s4.table == [Record("b", "Ibuprofen", 2, 2, None)];
    GetPostFindsRow(s3.table, 0);
  }
}

=== FILE: schema.dfy ===
/**
 The `sum` table of server/schema.ts: one row per drug record, keyed by `id`.
 Timestamps are abstract clock readings; the table itself is a sequence whose
 order stands for the order in which SQLite scans this rowid table: an INSERT
 lands at the end and an UPDATE keeps a row where it was.
 */
module Schema {

  datatype Option<+T> = None | Some(value: T)

  /** An abstract clock reading, as stored in `created_at` / `updated_at`. */
  type Timestamp = nat

  /** One row of `sum`. `drugName`, `createdAt` and `updatedAt` are NOT NULL
      columns and so are plain fields; `deleted_at` is nullable. */
  datatype Record = Record(
    id: string,
    drugName: string,
    createdAt: Timestamp,
    updatedAt: Timestamp,
    deletedAt: Option<Timestamp>)

  type Table = seq<Record>

  /** Some row of `t` has primary key `id`. */
  predicate HasId(t: Table, id: string)
  {
    exists i :: 0 <= i < |t| && t[i].id == id
  }

  /** The primary-key constraint: no two rows share an id. */
  predicate UniqueIds(t: Table)
  {
    forall i, j :: 0 <= i < |t| && 0 <= j < |t| && i != j ==> t[i].id != t[j].id
  }

  /** What every row written by the server actions satisfies: a non-empty
      drug name and no soft-deletion mark. */
  predicate LiveRow(r: Record)
  {
    r.drugName != "" && r.deletedAt == None
  }

  /** The table invariant the server actions maintain. */
  predicate Valid(t: Table)
  {
    UniqueIds(t) && forall i :: 0 <= i < |t| ==> LiveRow(t[i])
  }

  /** The primary keys present in the table. */
  function Keys(t: Table): (r: set<string>)
    ensures forall id :: id in r <==> HasId(t, id)
    ensures |r| <= |t|
  {
    if t == [] then {}
    else
      var rest := Keys(t[1..]);
      assert forall id :: HasId(t, id) <==> id == t[0].id || HasId(t[1..], id) by {
        forall id ensures HasId(t, id) <==> id == t[0].id || HasId(t[1..], id) {
          if HasId(t[1..], id) {
            var k :| 0 <= k < |t| - 1 && t[1..][k].id == id;
            assert t[k + 1].id == id;
          }
          if HasId(t, id) && id != t[0].id {
            var k :| 0 <= k < |t| && t[k].id == id;
            assert t[1..][k - 1].id == id;
          }
        }
      }
      {t[0].id} + rest
  }

  /** A non-empty table has unique ids exactly when its tail does and the
      head's id is not in the tail. */
  lemma UniqueIdsCons(t: Table)
    requires t != []
    ensures UniqueIds(t) <==> UniqueIds(t[1..]) && !HasId(t[1..], t[0].id)
  {
    var rest := t[1..];
    if UniqueIds(rest) && !HasId(rest, t[0].id) {
      forall i, j | 0 <= i < |t| && 0 <= j < |t| && i != j
        ensures t[i].id != t[j].id
      {
        if i > 0 && j > 0 {
          assert t[i] == rest[i - 1] && t[j] == rest[j - 1];
        } else if i == 0 {
          assert t[j] == rest[j - 1];
        } else {
          assert t[i] == rest[i - 1];
        }
      }
    }
    if UniqueIds(t) {
      forall i, j | 0 <= i < |rest| && 0 <= j < |rest| && i != j
        ensures rest[i].id != rest[j].id
      {
        assert rest[i] == t[i + 1] && rest[j] == t[j + 1];
      }
      forall k | 0 <= k < |rest| ensures rest[k].id != t[0].id {
        assert rest[k] == t[k + 1];
      }
    }
  }

  /** The primary-key constraint, counted: ids are unique exactly when the
      table has as many distinct keys as rows. */
  lemma {:induction false} UniqueIdsIffKeyCount(t: Table)
    ensures UniqueIds(t) <==> |Keys(t)| == |t|
  {
    if t != [] {
      var rest := t[1..];
      UniqueIdsIffKeyCount(rest);
      UniqueIdsCons(t);
      assert Keys(t) == {t[0].id} + Keys(rest);
      assert t[0].id in Keys(rest) <==> HasId(rest, t[0].id);
    }
  }
}

=== FILE: search.dfy ===
/**
 The client-side search of app/page.tsx: a post is shown when its drug name
 contains the search keyword (JavaScript's `String.prototype.includes`).
 */
module Search {
  import opened Schema
  import Seqs

  /** `needle` occurs in `hay` starting at position `i`. */
  ghost predicate OccursAt(hay: string, needle: string, i: int)
  {
    0 <= i && i + |needle| <= |hay| && hay[i..i + |needle|] == needle
  }

  /** `hay.includes(needle)`, by trying every start position in turn. */
  function Includes(hay: string, needle: string): bool
    decreases |hay|
  {
    if needle <= hay then true
    else if hay == [] then false
    else Includes(hay[1..], needle)
  }

  /** `Includes` is substring search: true exactly when the needle occurs
      somewhere in the haystack. */
  lemma {:induction false} IncludesIsSubstring(hay: string, needle: string)
    ensures Includes(hay, needle) <==> exists i :: OccursAt(hay, needle, i)
    decreases |hay|
  {
    if needle <= hay {
      assert hay[0..|needle|] == needle;
      assert OccursAt(hay, needle, 0);
    } else if hay == [] {
      assert forall i :: !OccursAt(hay, needle, i);
    } else {
      IncludesIsSubstring(hay[1..], needle);
      if exists i :: OccursAt(hay[1..], needle, i) {
        var i :| OccursAt(hay[1..], needle, i);
        assert hay[i + 1..i + 1 + |needle|] == hay[1..][i..i + |needle|];
        assert OccursAt(hay, needle, i + 1);
      }
      if exists i :: OccursAt(hay, needle, i) {
        var i :| OccursAt(hay, needle, i);
        assert OccursAt(hay, needle, 0) ==> needle <= hay;
        assert hay[1..][i - 1..i - 1 + |needle|] == hay[i..i + |needle|];
        assert OccursAt(hay[1..], needle, i - 1);
      }
    }
  }

  /** `posts.filter(post => post.drugName.includes(keyword))`. */
  function Filter(posts: seq<Record>, keyword: string): (r: seq<Record>)
    ensures |r| <= |posts|
    ensures forall p :: p in r <==> p in posts && Includes(p.drugName, keyword)
  {
    Seqs.Select(posts, (p: Record) => Includes(p.drugName, keyword))
  }

  /** Filtering keeps the posts' relative order: it distributes over
      concatenation, and a single post is kept exactly when it matches. */
  lemma FilterKeepsOrder(a: seq<Record>, b: seq<Record>, keyword: string)
    ensures Filter(a + b, keyword) == Filter(a, keyword) + Filter(b, keyword)
    ensures forall p: Record :: Filter([p], keyword) == if Includes(p.drugName, keyword) then [p] else []
  {
    Seqs.SelectAppend(a, b, (p: Record) => Includes(p.drugName, keyword));
    forall p: Record
      ensures Filter([p], keyword) == if Includes(p.drugName, keyword) then [p] else []
    {
      assert [p][1..] == [];
    }
  }

  /** An empty keyword shows the whole page. */
  lemma EmptyKeywordKeepsAll(posts: seq<Record>)
    ensures Filter(posts, "") == posts
  {
    Seqs.SelectAll(posts, (p: Record) => Includes(p.drugName, ""));
  }
}

=== FILE: seqs.dfy ===
/**
 Order-preserving selection over sequences: the meaning shared by a SQL
 `DELETE ... WHERE` (keep the rows that do not match) and by JavaScript's
 `Array.prototype.filter` (keep the elements the predicate accepts).
 */
module Seqs {

  /** The elements of `s` that `keep` accepts, in their original order. */
  function Select<T(!new)>(s: seq<T>, keep: T -> bool): (r: seq<T>)
    ensures |r| <= |s|
    ensures forall x :: x in r <==> x in s && keep(x)
  {
    if s == [] then []
    else (if keep(s[0]) then [s[0]] else []) + Select(s[1..], keep)
  }

  /** Selection distributes over concatenation: it never reorders elements. */
  lemma {:induction false} SelectAppend<T(!new)>(a: seq<T>, b: seq<T>, keep: T -> bool)
    ensures Select(a + b, keep) == Select(a, keep) + Select(b, keep)
  {
    if a == [] {
      assert a + b == b;
    } else {
      assert (a + b)[1..] == a[1..] + b;
      SelectAppend(a[1..], b, keep);
    }
  }

  /** When every element is accepted, nothing is dropped. */
  lemma {:induction false} SelectAll<T(!new)>(s: seq<T>, keep: T -> bool)
    requires forall i :: 0 <= i < |s| ==> keep(s[i])
    ensures Select(s, keep) == s
  {
    if s != [] {
      SelectAll(s[1..], keep);
    }
  }

  /** Selecting twice with the same predicate is selecting once. */
  lemma {:induction false} SelectIdempotent<T(!new)>(s: seq<T>, keep: T -> bool)
    ensures Select(Select(s, keep), keep) == Select(s, keep)
  {
    var r := Select(s, keep);
    forall i | 0 <= i < |r|
      ensures keep(r[i])
    {
      assert r[i] in r;
    }
    SelectAll(r, keep);
  }
}

=== FILE: view.dfy ===
/**
 The page component of app/page.tsx as an explicit state record with pure
 transitions. Each handler takes the store as well, since it calls a server
 action; the result is the store and view once the action and the effects
 it triggers have settled. The visible table (`filteredPosts`) is derived
 from the state rather than stored, because the filter effect recomputes
 it whenever `posts` or `searchKeyword` change.
 */
module View {
  import opened Schema
  import opened Crud
  import Search

  /** The component's state: the name input (`drugName`), the search input
      (`searchKeyword`), the fetched page (`posts`), the post being edited
      (`selectedPost`) and the pager. */
  datatype ViewState = ViewState(
    input: string,
    keyword: string,
    posts: seq<Record>,
    selected: Option<Record>,
    currentPage: int,
    totalPages: int)

  /** The `useState` initial values. */
  const Initial := ViewState("", "", [], None, 1, 1)

  /** The store and the view together. */
  datatype App = App(store: Table, view: ViewState)

  /** The form's two modes: no post selected, or one being edited. */
  datatype Mode = Idle | Editing

  function ModeOf(v: ViewState): Mode
  {
    if v.selected.Some? then Editing else Idle
  }

  /** The two buttons the form can show next to the name input. */
  datatype Button = CreateButton | UpdateButton

  /** The form shows "update" in Editing mode and "create" in Idle mode. */
  function ActionButton(v: ViewState): (b: Button)
    ensures b == UpdateButton <==> ModeOf(v) == Editing
    ensures b == CreateButton <==> ModeOf(v) == Idle
  {
    if v.selected.Some? then UpdateButton else CreateButton
  }

  /** The rows the table renders. */
  function FilteredPosts(v: ViewState): seq<Record>
  {
    Search.Filter(v.posts, v.keyword)
  }

  predicate PrevDisabled(v: ViewState)
  {
    v.currentPage == 1
  }

  predicate NextDisabled(v: ViewState)
  {
    v.currentPage == v.totalPages
  }

  /** The `else` branch of `fetchPosts`: a listing replaces the page, the
      page count and the page number; an error is only logged. */
  function ApplyListing(v: ViewState, res: Listing): (r: ViewState)
    ensures res.ListError? ==> r == v
    ensures res.Listed? ==>
      r.posts == res.posts && r.totalPages == res.totalPages && r.currentPage == res.currentPage
    ensures r.input == v.input && r.keyword == v.keyword && r.selected == v.selected
  {
    match res
    case ListError(_) => v
    case Listed(posts, totalPages, currentPage) =>
      v.(posts := posts, totalPages := totalPages, currentPage := currentPage)
  }

  /** `fetchPosts(page)`: list `page` at the default size and show it. */
  function FetchPosts(t: Table, v: ViewState, page: int): (r: ViewState)
    ensures r.currentPage == page
    ensures r.posts == GetAllPosts(t, page, DefaultPageSize).posts
    ensures IsCeiling(r.totalPages, |t|, DefaultPageSize)
    ensures r.input == v.input && r.keyword == v.keyword && r.selected == v.selected
  {
    ApplyListing(v, GetAllPosts(t, page, DefaultPageSize))
  }

  /** The mount effect: fetch the first page. */
  function Mount(t: Table): (r: App)
    ensures r.store == t
    ensures r.view.currentPage == 1 && r.view.input == "" && r.view.selected == None
    ensures r.view.posts == GetAllPosts(t, 1, DefaultPageSize).posts
    ensures IsCeiling(r.view.totalPages, |t|, DefaultPageSize)
  {
    App(t, FetchPosts(t, Initial, Initial.currentPage))
  }

  /** `handleCreate`: create from the name input; on success clear the
      input and refetch the current page, on failure change nothing. The
      selection is never touched. */
  function HandleCreate(a: App, freshId: string, createdClock: Timestamp, updatedClock: Timestamp): (r: App)
    ensures r.store == CreatePost(a.store, Some(a.view.input), freshId, createdClock, updatedClock).table
    ensures r.view.selected == a.view.selected && r.view.keyword == a.view.keyword
    ensures a.view.input != "" && !HasId(a.store, freshId) ==>
      && |r.store| == |a.store| + 1
      && r.store[..|a.store|] == a.store
      && r.store[|a.store|].id == freshId
      && r.store[|a.store|].drugName == a.view.input
      && r.store[|a.store|].createdAt == createdClock
      && r.store[|a.store|].updatedAt == updatedClock
      && r.view.input == ""
      && r.view.currentPage == a.view.currentPage
      && r.view.posts == GetAllPosts(r.store, a.view.currentPage, DefaultPageSize).posts
      && IsCeiling(r.view.totalPages, |r.store|, DefaultPageSize)
    ensures a.view.input == "" || HasId(a.store, freshId) ==> r == a
    ensures Valid(a.store) ==> Valid(r.store)
  {
    var step := CreatePost(a.store, Some(a.view.input), freshId, createdClock, updatedClock);
    if step.outcome.Success? then
      App(step.table, FetchPosts(step.table, a.view.(input := ""), a.view.currentPage))
    else a
  }

  /** `handleUpdate`: with a post selected, update it on the server; on
      success patch the local list in place (no refetch), clear the input
      and the selection. `serverClock` and `clientClock` are the clock
      readings of crud.js and of the page. */
  function HandleUpdate(a: App, serverClock: Timestamp, clientClock: Timestamp): (r: App)
    ensures a.view.selected.None? ==> r == a
    ensures a.view.input == "" ==> r == a
    ensures a.view.selected.Some? && a.view.input != "" ==>
      var id := a.view.selected.value.id;
      && r.store == UpdatePost(a.store, id, Some(a.view.input), serverClock).table
      && r.view.input == "" && r.view.selected == None
      && r.view.keyword == a.view.keyword
      && r.view.currentPage == a.view.currentPage && r.view.totalPages == a.view.totalPages
      && |r.view.posts| == |a.view.posts|
      && (forall i :: 0 <= i < |a.view.posts| && a.view.posts[i].id != id ==>
            r.view.posts[i] == a.view.posts[i])
      && (forall i :: 0 <= i < |a.view.posts| && a.view.posts[i].id == id ==>
            r.view.posts[i] == a.view.posts[i].(drugName := a.view.input, updatedAt := clientClock))
    ensures Valid(a.store) ==> Valid(r.store)
  {
    match a.view.selected
    case None => a
    case Some(post) =>
      var step := UpdatePost(a.store, post.id, Some(a.view.input), serverClock);
      if step.outcome.Success? then
        var posts := Rewrite(a.view.posts, post.id, a.view.input, clientClock);
        App(step.table, a.view.(posts := posts, input := "", selected := None))
      else a
  }

  /** `handleDelete`: delete on the server, then refetch the current page.
      The selection is not cleared, even when it is the deleted post. */
  function HandleDelete(a: App, id: string): (r: App)
    ensures r.store == DeletePost(a.store, id).table
    ensures !HasId(r.store, id)
    ensures forall x :: x in r.store <==> x in a.store && x.id != id
    ensures r.view.currentPage == a.view.currentPage
    ensures r.view.posts == GetAllPosts(r.store, a.view.currentPage, DefaultPageSize).posts
    ensures IsCeiling(r.view.totalPages, |r.store|, DefaultPageSize)
    ensures r.view.selected == a.view.selected && r.view.input == a.view.input
    ensures r.view.keyword == a.view.keyword
    ensures Valid(a.store) ==> Valid(r.store)
  {
    var step := DeletePost(a.store, id);
    if step.outcome.Success? then
      App(step.table, FetchPosts(step.table, a.view, a.view.currentPage))
    else a
  }

  /** `handleEdit`: load the post's name into the input and select it. */
  function HandleEdit(a: App, post: Record): (r: App)
    ensures r.store == a.store
    ensures r.view.input == post.drugName && r.view.selected == Some(post)
    ensures ModeOf(r.view) == Editing
    ensures r.view.posts == a.view.posts && r.view.keyword == a.view.keyword
    ensures r.view.currentPage == a.view.currentPage && r.view.totalPages == a.view.totalPages
  {
    App(a.store, a.view.(input := post.drugName, selected := Some(post)))
  }

  /** `handlePageChange` with the fetch effect keyed on `currentPage`: a new
      page number triggers a fetch of that page; the same number is not a
      state change, so no effect runs. */
  function HandlePageChange(a: App, page: int): (r: App)
    ensures r.store == a.store
    ensures r.view.currentPage == page
    ensures page != a.view.currentPage ==> r.view == FetchPosts(a.store, a.view, page)
    ensures page == a.view.currentPage ==> r == a
  {
    if page == a.view.currentPage then a
    else App(a.store, FetchPosts(a.store, a.view.(currentPage := page), page))
  }

  /** What the user can do on the page. The action button's click carries
      the environment it needs: a fresh uuid and two clock readings (the
      create action's `createdAt`/`updatedAt`, or the update action's
      server and client clocks). Row buttons name a row of the rendered
      table; a row that is not rendered has no button. */
  datatype Event =
    | EditName(text: string)
    | EditKeyword(text: string)
    | ClickAction(freshId: string, clock1: Timestamp, clock2: Timestamp)
    | ClickEdit(row: nat)
    | ClickDelete(row: nat)
    | ClickPrev
    | ClickNext

  /** One user event, with the handler the rendered page wires it to. A
      disabled pager button does nothing. */
  function Dispatch(a: App, e: Event): (r: App)
    ensures !(e.ClickAction? || e.ClickDelete?) ==> r.store == a.store
    ensures e.EditName? ==> r == App(a.store, a.view.(input := e.text))
    ensures e.EditKeyword? ==> r == App(a.store, a.view.(keyword := e.text))
    ensures e.EditKeyword? ==> FilteredPosts(r.view) == Search.Filter(a.view.posts, e.text)
    ensures e.ClickAction? ==> r == (if ModeOf(a.view) == Editing
      then HandleUpdate(a, e.clock1, e.clock2)
      else HandleCreate(a, e.freshId, e.clock1, e.clock2))
    ensures e.ClickEdit? && e.row < |FilteredPosts(a.view)| ==>
      r == HandleEdit(a, FilteredPosts(a.view)[e.row])
    ensures e.ClickDelete? && e.row < |FilteredPosts(a.view)| ==>
      r == HandleDelete(a, FilteredPosts(a.view)[e.row].id)
      && r.store == DeletePost(a.store, FilteredPosts(a.view)[e.row].id).table
    ensures (e.ClickEdit? || e.ClickDelete?) && e.row >= |FilteredPosts(a.view)| ==> r == a
  {
    match e
    case EditName(text) => App(a.store, a.view.(input := text))
    case EditKeyword(text) => App(a.store, a.view.(keyword := text))
    case ClickAction(freshId, clock1, clock2) =>
      if ActionButton(a.view) == UpdateButton then HandleUpdate(a, clock1, clock2)
      else HandleCreate(a, freshId, clock1, clock2)
    case ClickEdit(row) =>
      var shown := FilteredPosts(a.view);
      if row < |shown| then HandleEdit(a, shown[row]) else a
    case ClickDelete(row) =>
      var shown := FilteredPosts(a.view);
      if row < |shown| then HandleDelete(a, shown[row].id) else a
    case ClickPrev =>
      if PrevDisabled(a.view) then a else HandlePageChange(a, a.view.currentPage - 1)
    case ClickNext =>
      if NextDisabled(a.view) then a else HandlePageChange(a, a.view.currentPage + 1)
  }

  /** The page's invariant: the store satisfies the table invariant and the
      pager never shows a page below 1. */
  predicate AppInv(a: App)
  {
    Valid(a.store) && a.view.currentPage >= 1
  }

  lemma MountEstablishesInv(t: Table)
    requires Valid(t)
    ensures AppInv(Mount(t))
  {
  }

  /** Every event keeps the invariant; in particular "previous" being
      disabled on page 1 keeps the page number positive. */
  lemma DispatchKeepsInv(a: App, e: Event)
    requires AppInv(a)
    ensures AppInv(Dispatch(a, e))
  {
  }

  /** The form's state machine: Idle -> Editing on picking a rendered row,
      Editing -> Idle on a successful update (a non-empty input), and no
      other transition; a create leaves Idle as it is. */
  lemma ModeTransitions(a: App, e: Event)
    ensures ModeOf(Dispatch(a, e).view) == Editing <==>
      || (e.ClickEdit? && e.row < |FilteredPosts(a.view)|)
      || (ModeOf(a.view) == Editing && !(e.ClickAction? && a.view.input != ""))
  {
  }

  /** The pager: "previous" does nothing on page 1 and "next" does nothing
      when the page number equals the page count; otherwise they move one
      page back or forward and show that page. */
  lemma PagerButtons(a: App)
    ensures PrevDisabled(a.view) ==> Dispatch(a, ClickPrev) == a
    ensures NextDisabled(a.view) ==> Dispatch(a, ClickNext) == a
    ensures !PrevDisabled(a.view) ==>
      Dispatch(a, ClickPrev).view == FetchPosts(a.store, a.view, a.view.currentPage - 1)
    ensures !NextDisabled(a.view) ==>
      Dispatch(a, ClickNext).view == FetchPosts(a.store, a.view, a.view.currentPage + 1)
  {
  }

  /** With an empty table the page count is 0, so on page 1 "next" stays
      enabled and leads to an empty page 2. */
  lemma EmptyTableNextEnabled()
    ensures var a := Mount([]);
      && a.view.currentPage == 1 && a.view.totalPages == 0
      && !NextDisabled(a.view)
      && Dispatch(a, ClickNext).view.currentPage == 2
      && Dispatch(a, ClickNext).view.posts == []
  {
  }
}
